=== FILE: README.md ===
# My City Improve: complaint workflow, in Dafny

This project models the logic at the centre of a municipal complaint-intake service. Citizens submit complaints: a description, an optional photo, coordinates and an email address. Administrators authenticate with a bearer token and move each complaint through `Pending`, `In Progress` and `Resolved`. A keyword chatbot answers status queries, and the administrator page escapes complaint text before it puts it into HTML.

Every operation is a pure function. The store is a `seq<Complaint>` in insertion order. A handler takes the store and the request, and returns the HTTP response and the new store. Outside services become parameters:

- the clock is `now: nat`, in milliseconds;
- the photo upload is an `Option<Upload>` outcome;
- `jwt.verify`, `jwt.sign`, `bcrypt.compare` and `User.findById` are function parameters;
- the mail settings are a `MailConfig` value.

Modules, one per source concern:

- `ComplaintModel` (`complaint.dfy`): the schema of `models/Complaint.js`. It covers the status enumeration, the required description, the defaults and the creation validation.
- `ComplaintStore` (`store.dfy`): the list store of `db.js`, with append, find-first-by-id, update-status-in-place and `readAll`.
- `Listing` (`listing.dfy`): `find(filter).sort({field: -1}).limit(n)`. Sorting is an insertion sort. Its results are proved ordered and a permutation, and a capped listing is proved to hold the newest records.
- `Http` (`http.dfy`): response bodies and JavaScript truthiness of request fields.
- `Auth` (`auth.dfy`): the bearer-header middleware and the login decisions.
- `Workflow` (`workflow.dfy`): create, get by id and status update. `server.js` and `routes/complaints.js` share this logic.
- `ServerApi` (`server_api.dfy`) and `ComplaintRouter` (`router.dfy`): the two route files. They differ in listing caps, in the condition for sending email, and in route order.
- `Text` (`text.dfy`): `toLowerCase`, and whether `parseFloat` finds a number in a string.
- `Chatbot` (`chatbot.dfy`): the case-insensitive keyword dispatch.
- `HtmlEscape` (`escape.dfy`): `escapeHtml`, with a decoder that inverts it.

Three behaviours of the code that a reader might not expect:

- A status outside the enumeration gets no 400. The record passes the empty check and is found. Then document validation rejects it on save. `routes/complaints.js` catches that and answers 500. `server.js` leaves the rejection unhandled. The model answers 500 and leaves the store unchanged in both files.
- The listings in `server.js` have no cap. Only the router caps them, at 100 and 50.
- Any status may follow any other: neither handler checks the current status before setting a new one.

## Model

| member | source | states |
|---|---|---|
| ComplaintModel.ParseStatus | models/Complaint.js:9 | A status string is accepted exactly when it names one of `Pending`, `In Progress`, `Resolved`, and the accepted status has that name |
| ComplaintModel.ParseStatusName | models/Complaint.js:9 | Parsing inverts naming, and no two statuses share a name |
| ComplaintModel.CoordinateRejected | models/Complaint.js:6-7 | The `Number` type refuses a coordinate exactly when it is non-empty text that `parseFloat` turns into `NaN`; an empty one becomes `null` |
| ComplaintModel.Create | models/Complaint.js:3-12 | Creation succeeds iff the description is present and non-empty, neither `lat` nor `lng` is non-empty text that `parseFloat` turns into `NaN`, and any given status is in the enum. A missing or empty description fails with DescriptionRequired. Otherwise a rejected `lat`, then a rejected `lng`, fails with NotANumber naming that field. The new record carries the given fields, defaults to `Pending`, has `createdAt = now`, has no `updatedAt`, and is well formed |
| ComplaintStore.ReadAll | db.js:5-17 | A missing file is created holding the empty list and reads as empty. An empty file (the empty text) reads as empty. Stored records come back in stored order (this is also `getAllComplaints`, db.js:30-32) |
| ComplaintStore.WriteAll | db.js:19-21 | Writing always leaves a file that exists and holds serialised records, never empty text |
| ComplaintStore.ReadAfterWrite | db.js:13-21 | Reading after a write returns exactly the records written and leaves the file as written |
| ComplaintStore.ReadAllStable | db.js:5-17 | After a read the file exists, and reading again returns the same records and leaves the file as it was |
| ComplaintStore.FindIndex | db.js:41 | The index found holds the id and no earlier record does; no index iff no record has the id |
| ComplaintStore.Add | db.js:23-28 | Appending grows the list by one, keeps every earlier entry, puts the record last and returns it |
| ComplaintStore.Get | db.js:34-37 | The result is `None` iff no record has the id; otherwise it is the first record with that id |
| ComplaintStore.UpdateStatus | db.js:39-47 | An absent id returns `None` with the store unchanged. Otherwise the length is unchanged, only the first match changes and only in `status` and `updatedAt`, which take the given values, and the returned record is that element |
| ComplaintStore.GetAfterUpdate | db.js:39-47 | Reading the id after an update gives exactly the record the update returned |
| ComplaintStore.GetAfterAdd | db.js:23-37 | After an append, a lookup finds the earlier record with the id if there is one, else the appended record if the id matches, else nothing |
| ComplaintStore.UpdateStatusIdempotent | db.js:39-47 | Two updates to the same status leave the store as the second update alone would: only `updatedAt` moves |
| ComplaintStore.AddComplaint | db.js:23-28 | Adding through the file makes the next read return the earlier records followed by the new one, and hands the record back |
| ComplaintStore.GetComplaint | db.js:34-37 | The lookup finds nothing iff no record read from the file has the id; otherwise the record it returns has the id and is in the file. The file is left as the read left it |
| ComplaintStore.UpdateComplaintStatus | db.js:39-47 | An absent id returns `null` and writes nothing. Otherwise the next read returns the list updated in memory: only the first match changed, in `status` and `updatedAt`. The returned record has the id, the new status and the update time |
| ComplaintStore.GetComplaintAfterAdd | db.js:23-37 | After adding a complaint to the file, a lookup by its id finds it, unless an earlier record already had that id |
| ComplaintStore.GetComplaintAfterUpdate | db.js:34-47 | After an update through the file, a lookup by the id returns exactly what the update returned, and `null` when the id was absent |
| ComplaintStore.UpdatePreservesWellFormed | db.js:43-44 | When the clock has not run backwards, an update keeps every record well formed, so `createdAt <= updatedAt` |
| Listing.Insert | routes/complaints.js:41 | Insertion adds exactly the one record: the multiset grows by it |
| Listing.InsertSorted | routes/complaints.js:41 | Inserting into a newest-first sequence keeps it newest first |
| Listing.SortDesc | routes/complaints.js:41 | Sorting returns a permutation of its input |
| Listing.SortDescSorted | routes/complaints.js:41 | Sorting returns a sequence ordered newest first by the chosen field |
| Listing.Take | routes/complaints.js:42 | `limit(n)` returns the first `min(n, length)` records |
| Listing.FilterResolved | routes/complaints.js:104 | A record is in the result iff it is in the store with status `Resolved`. Each resolved record appears as many times as it is stored, and each other record not at all |
| Listing.TopN | routes/complaints.js:40-42 | The capped listing has `min(n, length)` records, all taken from the store |
| Listing.TopNSorted | routes/complaints.js:40-42 | The capped listing is ordered newest first |
| Listing.TopNNewest | routes/complaints.js:40-42 | No record left out of the capped listing is newer than any record in it |
| Listing.AdminListing | routes/complaints.js:40-42 | The administrator listing has `min(100, store size)` records drawn from the store |
| Listing.AdminListingNewest | routes/complaints.js:40-42 | The administrator listing is ordered by `createdAt` descending, and nothing it omits was created later than anything it shows |
| Listing.ResolvedListing | routes/complaints.js:104-106 | The resolved listing holds only resolved records from the store, each at most as many times as it is stored, and holds `min(50, number resolved)` of them |
| Listing.ResolvedListingNewest | routes/complaints.js:104-106 | The resolved listing is ordered by `updatedAt` descending, and no resolved record it omits was updated later |
| Listing.ResolvedListingComplete | routes/complaints.js:104-106 | With at most 50 resolved records, every one of them is listed |
| Http.OrNull | server.js:167 | `v \|\| null` keeps a non-empty string and turns an absent or empty one into `null` |
| Auth.TokenOf | middleware/auth.js:9 | The token is the header with the seven-character `Bearer ` prefix removed |
| Auth.Authenticate | middleware/auth.js:6-19 | A rejection is always 401. An absent header, or one not starting with the exact text `Bearer `, gives `missing token`. Otherwise `next` runs with the looked-up user iff verification yields an id that resolves to a user. A failed verification or an unknown user gives `invalid token` |
| Auth.FindByEmail | server.js:179 | The account found has the email; no account iff none has it |
| Auth.Login | server.js:176-185 | A missing or empty email or password gives 400 `email and password required`. The answer is 200 iff the account exists and the password matches; the token then signs the account's id, email and role with a 12-hour lifetime. Every 401 is the same `invalid credentials` |
| Auth.LoginHidesUnknownEmail | server.js:178-182 | An unknown email and a wrong password for a known email get identical responses |
| Auth.LoginTokenAuthenticates | server.js:183-184 | Suppose verification gives back the `id` claim of every token that signing produces, and the account still exists. Then the token from a successful login passes the middleware as that account |
| HtmlEscape.EscapeChar | public/js/admin.js:47 | Each of the five characters becomes a reference starting with `&` and ending with `;`, and every other character is copied |
| HtmlEscape.UnescapeStep | public/js/admin.js:47 | The reference for each character (`&amp; &lt; &gt; &quot; &#39;`) decodes back to exactly that character, whatever text follows it |
| HtmlEscape.EscapeHtml | public/js/admin.js:47 | `null` or `undefined` gives the empty string; a string is escaped character by character |
| HtmlEscape.EscapeConcat | public/js/admin.js:47 | Escaping distributes over concatenation |
| HtmlEscape.EscapePlain | public/js/admin.js:47 | A string with none of `& < > " '` is returned unchanged and in order |
| HtmlEscape.EscapeNoMarkup | public/js/admin.js:47 | The output contains no `<`, `>`, `"` or `'` |
| HtmlEscape.EscapeLength | public/js/admin.js:47 | The output is at least as long as the input, and equally long iff none of the five characters occurs |
| HtmlEscape.UnescapeEscape | public/js/admin.js:47 | Decoding the five references gives back the original text, so escaping loses nothing |
| HtmlEscape.EscapeScan | public/js/admin.js:47 | The one-pass scan that appends each character's replacement computes the escaped text |
| Text.Lower | server.js:224 | Lower-casing keeps the length and maps each character on its own |
| Text.LowerIdempotent | server.js:224 | Lower-casing an already lower-cased string changes nothing |
| Text.LowerUnchanged | server.js:224 | A string with no upper-case ASCII letter is its own lower-cased form |
| Text.ParsesAsNumber | server.js:167 | `parseFloat` does not give `NaN` exactly when, after leading white space and one optional sign, the text starts with a digit, with a point followed by a digit, or with `Infinity` |
| Text.TrimStart | server.js:167 | `parseFloat` skips a prefix made only of white space, and the rest starts with something else or is empty |
| Text.TrimStartSkipsSpaces | server.js:167 | Dropping leading white space gives the same result whatever white space came first |
| Text.LeadingSpacesIgnored | server.js:167 | White space before a coordinate never changes whether `parseFloat` finds a number in it |
| Text.DigitStartParses | server.js:167 | Every text that starts with a digit parses as a number, whatever follows the digit |
| Text.OtherStartRejected | server.js:167 | Past the white space, empty text or text starting with anything but a digit, `+`, `-`, `.` or the `I` of `Infinity` gives `NaN` |
| Text.ParsesAsNumberExample | server.js:167 | The signed decimal `-12.5` parses as a number |
| Text.WordIsNotANumber | server.js:167 | The word `abc` does not parse: `parseFloat` gives `NaN` |
| Chatbot.Contains | server.js:225 | `includes`: the needle occurs in the text at some offset |
| Chatbot.StatusQuestionSubsumed | server.js:225 | A message asks for status iff its lower-cased form contains `status`; the longer phrase adds nothing |
| Chatbot.Respond | server.js:221-232 | A missing or empty message gives 400 `message required`, and every other message gets 200 with a reply. A message without `status` in any case gets the fallback. A status query without an id gets the id prompt. An unknown id gets `No complaint found with id X`. A known id gets `Complaint X is currently: S` with the stored status |
| Chatbot.RespondIgnoresCase | server.js:224-225 | A message and its lower-cased form get the same reply |
| Chatbot.RespondNamesStatus | server.js:229 | A status query about a stored complaint gets a reply containing the complaint's current status name |
| Chatbot.FallbackIgnoresStore | server.js:231 | Without `status` in the message the reply is the fallback, whatever the store holds |
| Workflow.Submit | server.js:149-173 | (routes/complaints.js:8-35 behaves the same.) The identifier the store assigns is fresh. A missing or empty description gives 400. A failed upload gives 500. A `lat` or `lng` that is present but makes `parseFloat` return `NaN` gives 500, because `Complaint.create` fails on the number field. In all three the store is unchanged. Otherwise the answer is 200 and the store gains exactly the returned record at the end. That record has the description. An absent or empty email, lat or lng becomes `null`. The photo URL is the upload's URL, or `null` with no file. The status is `Pending`, `createdAt` is now and there is no `updatedAt` |
| Workflow.Lookup | server.js:194-198 | The answer is 404 `not found` iff no record has the id; otherwise 200 with a stored record carrying the id (also routes/complaints.js:50-59) |
| Workflow.SubmitThenLookup | server.js:167-197 | A complaint submitted under a fresh id reads back by that id exactly as it was returned |
| Workflow.ChangeStatus | server.js:201-212 | A missing status gives 400 before any lookup; an unknown id gives 404; a status outside the enum gives 500. In all three the store is unchanged. Success happens iff none of these applies. Then only the first record with the id changes, only in `status` and `updatedAt`, every other index is untouched, the length is kept, and the returned record is what a later read sees |
| Workflow.ChangeStatusIdempotent | server.js:206-208 | Setting the same status twice leaves the store as the second call alone would |
| Workflow.Gate | server.js:201 | `authMiddleware` runs before the handler: a rejection is answered with the middleware's response and leaves the store unchanged, and a request it lets through gets the handler's outcome (also routes/complaints.js:61) |
| Workflow.GateRejectsUnauthorized | middleware/auth.js:6-19 | Behind the middleware, a request without a valid token is answered 401 and leaves the store unchanged; a request with one gets the handler's outcome |
| Workflow.HandlersPreserveWellFormed | models/Complaint.js:3-12 | When the clock has not run backwards, creation and status update keep every stored record well formed: non-empty description and `createdAt <= updatedAt` |
| Workflow.ChangeStatusKeepsIds | server.js:206-208 | A status change keeps the number of records and the id at every position |
| Workflow.HandlersPreserveUniqueIds | server.js:167-208 | When no two stored records share an id, a creation under a fresh id and a status update keep it that way |
| Workflow.SubmitUpdateLookup | server.js:149-212 | After a submission and a move to `In Progress`, an anonymous lookup sees `In Progress` with the update time set |
| ServerApi.ListAll | server.js:188-191 | Without authentication the answer is the middleware's 401. With it, every complaint is listed, with no cap |
| ServerApi.ListAllSorted | server.js:189 | The uncapped administrator listing is ordered by `createdAt` descending |
| ServerApi.ResolvedAll | server.js:215-218 | A record is listed iff it is stored and resolved. Each resolved record is listed as many times as it is stored |
| ServerApi.ResolvedAllSorted | server.js:216 | The uncapped resolved listing is ordered by `updatedAt` descending |
| ServerApi.SetStatus | server.js:201-212 | The response and the store are the gated status change. An email is started iff the change succeeded, the transporter has both mail settings, and the complaint has an email address. It goes to that address, with subject `Complaint <id> status: <status>` |
| ServerApi.SetStatusIgnoresMail | server.js:210-211 | The mail settings never change the response or the store: the email is not awaited |
| ServerApi.SetStatusUnauthorized | server.js:201 | When the middleware rejects, the answer is 401, the store is unchanged and no email is started |
| ComplaintRouter.List | routes/complaints.js:38-47 | Without authentication the answer is the middleware's 401. With it, the answer is the administrator listing: `min(100, store size)` complaints drawn from the store, the newest created first |
| ComplaintRouter.ListUnauthorized | routes/complaints.js:38 | A request without a `Bearer ` header gets 401 `missing token` |
| ComplaintRouter.ResolvedList | routes/complaints.js:102-111 | The answer is the resolved listing: only stored, resolved complaints, at most 50, the most recently updated first |
| ComplaintRouter.ObjectIdText | routes/complaints.js:52 | `findById` casts the id without a cast error exactly when it is 24 hexadecimal digits, in either letter case (also line 66) |
| ComplaintRouter.ObjectIdTextIgnoresCase | routes/complaints.js:52 | An id is a well-formed ObjectId iff its lower-cased form is |
| ComplaintRouter.FindOne | routes/complaints.js:50-59 | An id that is not 24 hexadecimal digits fails the ObjectId cast, and the `catch` answers 500. A well-formed id is looked up in its lower-case form, since both cases name the same ObjectId. The answer is 200 iff the id is well formed and stored |
| ComplaintRouter.FindOneIgnoresCase | routes/complaints.js:50-59 | An id and its lower-cased form always get the same answer |
| ComplaintRouter.ChangeOne | routes/complaints.js:61-70 | The status is checked before the id: a missing status gives 400. With a status present, a malformed id gives 500 and leaves the store unchanged. Otherwise the result is the shared status change on the lower-cased id, so success happens iff the status is present and in the enum and the id is well formed and stored |
| ComplaintRouter.ChangeOneIgnoresCase | routes/complaints.js:61-70 | An id and its lower-cased form always get the same response and leave the same store |
| ComplaintRouter.SetStatus | routes/complaints.js:61-99 | The response and the store are the gated status change, with the router's cast check on the id. An email is attempted iff the change succeeded, `EMAIL_USER` is set and the complaint has an email address. A failed send is caught, so the updated record is returned either way |
| ComplaintRouter.Dispatch | routes/complaints.js:50 | Express picks the first registered route whose pattern matches the path segment. A literal matches regardless of letter case, and a parameter matches any non-empty segment. With no match, no route is chosen |
| ComplaintRouter.DispatchRegistered | routes/complaints.js:50-102 | In the registered order every non-empty segment goes to `/:id`, and the empty segment matches no route |
| ComplaintRouter.DispatchIntended | routes/complaints.js:50-102 | With `/resolved` registered first, a segment that lower-cases to `resolved` goes to the listing. Any other non-empty segment goes to `/:id`, and the empty segment matches no route |
| ComplaintRouter.ResolvedShadowed | routes/complaints.js:50-102 | In the registered order, `/:id` comes before `/resolved`, so the resolved route is never chosen. Every non-empty segment is a lookup by id. `GET /resolved`, in any letter case, is answered 500 `server error`, because `resolved` is not an ObjectId |
| ComplaintRouter.IntendedDispatch | routes/complaints.js:50-102 | With `/resolved` registered first, `GET /resolved` in any letter case gives the resolved listing. Every other segment is dispatched exactly as before, as a lookup by id |

## Findings

| source | as written | input that shows it | evidently intended | confidence | as-written member | corrected member |
|---|---|---|---|---|---|---|
| routes/complaints.js:50-102 | `GET /:id` is registered before `GET /resolved`, and the parameter matches every non-empty segment | `GET /resolved` on the router is taken by `/:id`; `findById("resolved")` fails the ObjectId cast and the answer is 500 | `GET /resolved` returns the resolved listing | high; not executed | ComplaintRouter.ResolvedShadowed | ComplaintRouter.IntendedDispatch |

## Left out

- HTTP plumbing is not modelled: Express, multer and express-fileupload parsing, static files, the SPA fallback, compression, logging, the global error handler and security middleware. The handlers receive already-parsed fields.
- The Mongo connection, its retry loop and the initial-admin bootstrap are I/O and process lifecycle.
- ComplaintStore.ReadAll: the JSON text of `db.js` is reduced to three file states: missing, empty, or holding a list. Serialisation with two-space indentation is not modelled. Text that `JSON.parse` rejects, such as white space only, throws in the source and is not representable here.
- A failure of the database itself (a lost connection, a timeout) is not modelled; every store call here succeeds. In `server.js`, `create` runs inside a `try` and such a failure would answer 500. The `User.findOne` and `comparePassword` calls of login at server.js:179 and 181, and the `find`, `findById` and `save` calls at server.js:189, 195, 204, 208, 216 and 227, run outside any `try`. There the rejection is unhandled, and the handler at server.js:260-266 closes the server and exits the process.
- `findById` with a malformed identifier is modelled for the router only (ComplaintRouter.FindOne, ComplaintRouter.ChangeOne): the cast error is caught and answered with 500. In `server.js` the same input is an unhandled rejection at server.js:195, 204 and 227, and it shuts the process down (server.js:260-266). Workflow.Lookup, Workflow.ChangeStatus and Chatbot.Respond treat identifiers as opaque strings compared by equality, so for them a malformed id is simply not found, and so is an upper-case spelling of a stored id, which `findById` would read as the same ObjectId. Not modelled for those three: the shutdown, and the case-insensitive reading of hexadecimal digits.
- Workflow.Lookup: for `server.js`, a stored id spelled with upper-case hexadecimal digits gives 404 here, where `findById` finds the record (server.js:195).
- Workflow.ChangeStatus: for `server.js`, the same upper-case spelling gives 404 here, where `findById` finds and updates the record (server.js:204).
- Chatbot.Respond: the same upper-case spelling gets `No complaint found` here, where `findById` finds the record (server.js:227).
- ComplaintRouter.FindOne: an ObjectId is taken to be exactly 24 hexadecimal digits. A 12-character string, which some driver versions also cast, is treated as malformed. Stored identifiers are assumed to be in the lower-case form the document store prints; the model does not state this as a store invariant.
- ComplaintStore.UpdateStatus: `db.js` stores whatever status string it is given, but the model types the status as the three-value enumeration. An arbitrary string from the JSON store is not representable.
- Cloudinary upload, nodemailer delivery, bcrypt and JWT are external. They appear only as outcome parameters or oracle functions. Token expiry lives inside the verification oracle.
- Workflow.Submit: the number `parseFloat` returns on `lat`/`lng` is floating point and is not modelled. A coordinate is kept as the submitted text, or `null` when falsy. Only whether `parseFloat` gives `NaN` is modelled, and that case answers 500.
- Text.TrimStart: skips the ASCII white space, no-break space, byte order mark and line and paragraph separators. The other Unicode space separators, which `parseFloat` also skips, are not listed.
- Text.Lower: maps only ASCII `A`-`Z`, whereas `toLowerCase` also folds non-ASCII letters.
- `server.js:183` uses `jwt` without importing it, so a successful login throws there. Auth.Login models the intended signing instead of the crash.
- `routes/complaints.js:76` uses `nodemailer` without importing it, so every send attempt lands in the `catch`. ComplaintRouter.SetStatus records the attempt. The response does not depend on it either way.
- `server.js` leaves the 500 path of ChangeStatus unhandled, since `save` rejects outside any `try`. The model gives the router's 500 answer for both files.
- The email body text and whether the email is delivered are not observed by any response. The notice records the recipient, subject and text only.
- Sort ties: the document store leaves the order of equal keys unspecified. The model's insertion sort happens to keep stored order, but no contract promises that.
- The health endpoint, the user schema's bootstrap helper and the DOM code of the front-end pages are not part of this model.

=== FILE: auth.dfy ===
/**
 * Bearer-token authentication of `middleware/auth.js` and the login
 * decisions of `server.js`. JWT signing and verification, password hashing
 * and the user lookup are external; they are parameters here.
 */
module Auth {
  import opened Wrappers
  import opened Http

  /** The roles the user schema admits. */
  datatype Role = AdminRole | UserRole

  /** An administrator account; the password hash is opaque. */
  datatype User = User(id: string, email: string, passwordHash: string, role: Role)

  /** What the middleware decides: answer 401 with an error, or call `next` with `req.user` set. */
  datatype Decision = Reject(response: Response) | Proceed(user: User)

  /** The required, case-sensitive scheme prefix of the header. */
  const BearerPrefix := "Bearer "

  /** The header value, `''` when absent. */
  function HeaderText(header: Option<string>): string
  {
    match header
    case None => ""
    case Some(h) => h
  }

  /** `auth.slice(7)`: the header with the scheme prefix removed. */
  function TokenOf(text: string): (t: string)
    requires BearerPrefix <= text
    ensures BearerPrefix + t == text
  {
    text[|BearerPrefix|..]
  }

  /**
   * `authMiddleware`. `verify` is `jwt.verify` (`None` when it throws) giving
   * the payload's user id; `findUser` is `User.findById` (`None` when no user
   * or when the lookup throws).
   */
  function Authenticate(header: Option<string>, verify: string -> Option<string>,
                        findUser: string -> Option<User>): (d: Decision)
    ensures d.Reject? ==> d.response.code == Unauthorized
    ensures !(BearerPrefix <= HeaderText(header)) ==>
      d == Reject(Response(Unauthorized, Error("missing token")))
    ensures BearerPrefix <= HeaderText(header) ==>
      var id := verify(TokenOf(HeaderText(header)));
      if id.Some? && findUser(id.value).Some? then d == Proceed(findUser(id.value).value)
      else d == Reject(Response(Unauthorized, Error("invalid token")))
  {
    var text := HeaderText(header);
    if !(BearerPrefix <= text) then Reject(Response(Unauthorized, Error("missing token")))
    else
      match verify(text[7..])
      case None => Reject(Response(Unauthorized, Error("invalid token")))
      case Some(id) =>
        match findUser(id)
        case None => Reject(Response(Unauthorized, Error("invalid token")))
        case Some(user) => Proceed(user)
  }

  /** The claims `jwt.sign` receives on login. */
  datatype Claims = Claims(id: string, email: string, role: Role, expiresInSeconds: nat)

  /** `expiresIn: '12h'`. */
  const TokenLifetimeSeconds: nat := 12 * 60 * 60

  /** `User.findOne({ email })`: the first account with that email. */
  function FindByEmail(users: seq<User>, email: string): (r: Option<User>)
    ensures r.Some? ==> r.value in users && r.value.email == email
    ensures r.None? <==> forall i :: 0 <= i < |users| ==> users[i].email != email
  {
    if |users| == 0 then None
    else if users[0].email == email then Some(users[0])
    else FindByEmail(users[1..], email)
  }

  /**
   * `POST /api/auth/login`. `passwordMatches(password, hash)` is
   * `bcrypt.compare`; `sign` is `jwt.sign` with the server secret.
   */
  function Login(users: seq<User>, email: Option<string>, password: Option<string>,
                 passwordMatches: (string, string) -> bool, sign: Claims -> string): (r: Response)
    ensures r.code == BadRequest <==> !Present(email) || !Present(password)
    ensures r.code == BadRequest ==> r == Response(BadRequest, Error("email and password required"))
    ensures r.code == OkCode <==>
      && Present(email) && Present(password)
      && FindByEmail(users, email.value).Some?
      && passwordMatches(password.value, FindByEmail(users, email.value).value.passwordHash)
    ensures r.code == OkCode ==>
      var u := FindByEmail(users, email.value).value;
      r.body == Token(sign(Claims(u.id, u.email, u.role, TokenLifetimeSeconds)))
    ensures r.code == Unauthorized ==> r == Response(Unauthorized, Error("invalid credentials"))
    ensures r.code in {OkCode, BadRequest, Unauthorized}
  {
    if !Present(email) || !Present(password) then
      Response(BadRequest, Error("email and password required"))
    else
      match FindByEmail(users, email.value)
      case None => Response(Unauthorized, Error("invalid credentials"))
      case Some(u) =>
        if !passwordMatches(password.value, u.passwordHash) then
          Response(Unauthorized, Error("invalid credentials"))
        else
          Response(OkCode, Token(sign(Claims(u.id, u.email, u.role, TokenLifetimeSeconds))))
  }

  /**
   * An unknown email and a wrong password for a known one get the same
   * answer, so the response does not reveal which accounts exist.
   */
  lemma LoginHidesUnknownEmail(users: seq<User>, known: string, unknown: string, password: string,
                               passwordMatches: (string, string) -> bool, sign: Claims -> string)
    requires known != "" && unknown != "" && password != ""
    requires FindByEmail(users, unknown).None?
    requires FindByEmail(users, known).Some?
    requires !passwordMatches(password, FindByEmail(users, known).value.passwordHash)
    ensures Login(users, Some(unknown), Some(password), passwordMatches, sign)
         == Login(users, Some(known), Some(password), passwordMatches, sign)
  {
  }

  /**
   * A token issued by a successful login authenticates its holder, given
   * that verification recovers the id from every token signing produced
   * and that the account still exists.
   */
  lemma LoginTokenAuthenticates(users: seq<User>, email: string, password: string,
                                passwordMatches: (string, string) -> bool, sign: Claims -> string,
                                verify: string -> Option<string>, findUser: string -> Option<User>)
    requires forall c: Claims :: verify(sign(c)) == Some(c.id)
    requires Login(users, Some(email), Some(password), passwordMatches, sign).code == OkCode
    requires var u := FindByEmail(users, email).value; findUser(u.id) == Some(u)
    ensures var t := Login(users, Some(email), Some(password), passwordMatches, sign).body.token;
            Authenticate(Some(BearerPrefix + t), verify, findUser) == Proceed(FindByEmail(users, email).value)
  {
  }
}

=== FILE: chatbot.dfy ===
/**
 * The chatbot of `POST /api/chatbot` in `server.js`: a read-only,
 * case-insensitive keyword match over the message, answering status
 * queries by looking the complaint up.
 */
module Chatbot {
  import opened Wrappers
  import opened ComplaintModel
  import opened ComplaintStore
  import opened Http
  import opened Text

  /** `hay.includes(needle)`. */
  predicate Contains(hay: string, needle: string)
    decreases |hay|
  {
    needle <= hay || (|hay| > 0 && Contains(hay[1..], needle))
  }

  /** What contains `needle` from some offset on contains it. */
  lemma {:induction false} ContainsFrom(hay: string, needle: string, k: nat)
    requires k <= |hay| && Contains(hay[k..], needle)
    ensures Contains(hay, needle)
  {
    if k > 0 {
      assert hay[1..][k - 1..] == hay[k..];
      ContainsFrom(hay[1..], needle, k - 1);
    }
  }

  /** Containment is transitive through a containing phrase. */
  lemma {:induction false} ContainsTrans(hay: string, mid: string, needle: string)
    requires Contains(hay, mid) && Contains(mid, needle)
    ensures Contains(hay, needle)
    decreases |hay|
  {
    if mid <= hay {
      ContainsPrefix(mid, hay, needle);
    } else {
      ContainsTrans(hay[1..], mid, needle);
      ContainsFrom(hay, needle, 1);
    }
  }

  /** What a prefix contains, the whole contains. */
  lemma {:induction false} ContainsPrefix(p: string, hay: string, needle: string)
    requires p <= hay && Contains(p, needle)
    ensures Contains(hay, needle)
    decreases |p|
  {
    if needle <= p {
    } else {
      assert |p| > 0 && Contains(p[1..], needle);
      assert p[1..] <= hay[1..];
      ContainsPrefix(p[1..], hay[1..], needle);
    }
  }

  /** Every string contains its suffix. */
  lemma ContainsSuffix(a: string, b: string)
    ensures Contains(a + b, b)
  {
    assert (a + b)[|a|..] == b;
    ContainsFrom(a + b, b, |a|);
  }

  const StatusWord := "status"
  const StatusQuestion := "what is the status"

  const AskForId := "Please provide your complaint id. Example: { \"id\": \"<your-id>\", \"message\": \"status\" }"
  const Fallback := "I can tell you the status of a complaint. Try: \"What is the status of my complaint?\" and include your complaint id."

  function NotFoundReply(id: string): string
  {
    "No complaint found with id " + id
  }

  function StatusReply(id: string, status: Status): string
  {
    "Complaint " + id + " is currently: " + StatusName(status)
  }

  /** The message is a status query: it mentions "status" or "what is the status". */
  predicate AsksStatus(message: string)
  {
    Contains(Lower(message), StatusWord) || Contains(Lower(message), StatusQuestion)
  }

  /** The longer phrase adds nothing: every message that has it has "status". */
  lemma StatusQuestionSubsumed(message: string)
    ensures AsksStatus(message) <==> Contains(Lower(message), StatusWord)
  {
    var m := Lower(message);
    if Contains(m, StatusQuestion) {
      QuestionHasWord();
      ContainsTrans(m, StatusQuestion, StatusWord);
    }
  }

  /** The phrase ends in the word. */
  lemma QuestionHasWord()
    ensures Contains(StatusQuestion, StatusWord)
  {
    ContainsSuffix("what is the ", StatusWord);
    assert "what is the " + StatusWord == StatusQuestion;
  }

  /**
   * The handler. It only reads the store: its result is a response and
   * no store comes out of it.
   */
  function Respond(store: Store, message: Option<string>, id: Option<string>): (r: Response)
    ensures r.code == BadRequest <==> !Present(message)
    ensures !Present(message) ==> r == Response(BadRequest, Error("message required"))
    ensures Present(message) ==> r.code == OkCode && r.body.Reply?
    ensures Present(message) && !AsksStatus(message.value) ==> r.body.reply == Fallback
    ensures Present(message) && AsksStatus(message.value) ==>
      if !Present(id) then r.body.reply == AskForId
      else if Get(store, id.value).None? then r.body.reply == NotFoundReply(id.value)
      else r.body.reply == StatusReply(id.value, Get(store, id.value).value.status)
  {
    if !Present(message) then Response(BadRequest, Error("message required"))
    else
      var lower := Lower(message.value);
      if Contains(lower, StatusWord) || Contains(lower, StatusQuestion) then
        if !Present(id) then Response(OkCode, Reply(AskForId))
        else
          match Get(store, id.value)
          case None => Response(OkCode, Reply(NotFoundReply(id.value)))
          case Some(c) => Response(OkCode, Reply(StatusReply(id.value, c.status)))
      else Response(OkCode, Reply(Fallback))
  }

  /** Matching ignores case: a message and its lower-cased form get the same answer. */
  lemma RespondIgnoresCase(store: Store, message: string, id: Option<string>)
    ensures Respond(store, Some(message), id) == Respond(store, Some(Lower(message)), id)
  {
    LowerIdempotent(message);
  }

  /** A status query about a stored complaint gets a reply naming its current status. */
  lemma RespondNamesStatus(store: Store, message: string, id: string)
    requires message != "" && id != ""
    requires AsksStatus(message) && Get(store, id).Some?
    ensures Contains(Respond(store, Some(message), Some(id)).body.reply, StatusName(Get(store, id).value.status))
  {
    var s := Get(store, id).value.status;
    ContainsSuffix("Complaint " + id + " is currently: ", StatusName(s));
  }

  /** A message not mentioning "status" in any case gets the fallback, whatever the store holds. */
  lemma FallbackIgnoresStore(s1: Store, s2: Store, message: string, id: Option<string>)
    requires message != "" && !Contains(Lower(message), StatusWord)
    ensures Respond(s1, Some(message), id) == Respond(s2, Some(message), id) == Response(OkCode, Reply(Fallback))
  {
    StatusQuestionSubsumed(message);
  }
}

=== FILE: complaint.dfy ===
/**
 * The complaint record of `models/Complaint.js`: its fields, the status
 * enumeration with its default, the required description and the creation
 * timestamp.
 */
module ComplaintModel {
  import opened Wrappers
  import opened Text

  /** An opaque complaint identifier (Mongo's `_id`, or the `id` of the JSON store). */
  type Id = string

  /** Milliseconds since the epoch, as `Date.now()` gives them. */
  type Timestamp = nat

  /** The three values the schema's `enum` admits. */
  datatype Status = Pending | InProgress | Resolved

  /** The text the schema stores for each status. */
  function StatusName(s: Status): string
  {
    match s
    case Pending => "Pending"
    case InProgress => "In Progress"
    case Resolved => "Resolved"
  }

  /** Enum validation: the status named by `text`, if the schema admits it. */
  function ParseStatus(text: string): (r: Option<Status>)
    ensures r.Some? ==> StatusName(r.value) == text
    ensures r.None? ==> forall s: Status :: StatusName(s) != text
  {
    if text == "Pending" then Some(Pending)
    else if text == "In Progress" then Some(InProgress)
    else if text == "Resolved" then Some(Resolved)
    else None
  }

  /** Parsing inverts naming, and the names are pairwise distinct. */
  lemma ParseStatusName(s: Status)
    ensures ParseStatus(StatusName(s)) == Some(s)
    ensures forall t: Status :: StatusName(t) == StatusName(s) ==> t == s
  {
  }

  /**
   * A stored complaint. Coordinates are kept as the submitted text: the
   * floating-point conversion is not part of this model.
   */
  datatype Complaint = Complaint(
    id: Id,
    description: string,
    email: Option<string>,
    lat: Option<string>,
    lng: Option<string>,
    photoUrl: Option<string>,
    status: Status,
    createdAt: Timestamp,
    updatedAt: Option<Timestamp>)

  /** The invariant every stored complaint keeps. */
  ghost predicate WellFormed(c: Complaint)
  {
    && c.description != ""
    && (c.updatedAt.Some? ==> c.createdAt <= c.updatedAt.value)
  }

  /**
   * The fields handed to `Complaint.create`; `None` is an absent field.
   * `lat` and `lng` are kept as the submitted text that `parseFloat` reads.
   */
  datatype Fields = Fields(
    description: Option<string>,
    email: Option<string>,
    lat: Option<string>,
    lng: Option<string>,
    photoUrl: Option<string>,
    status: Option<string>)

  /**
   * A coordinate the `Number` type refuses: the text is non-empty (an empty
   * one becomes `null`) and `parseFloat` makes `NaN` of it.
   */
  predicate CoordinateRejected(v: Option<string>)
  {
    v.Some? && v.value != "" && !ParsesAsNumber(v.value)
  }

  /** Why schema validation rejects a new document. */
  datatype SchemaError = DescriptionRequired | NotANumber(path: string) | StatusNotInEnum(given: string)

  /**
   * Schema validation and defaults on creation: `description` is required
   * (an empty string fails `required` too), `lat` and `lng` must be numbers,
   * `status` must be in the enum and defaults to `Pending`, `createdAt`
   * defaults to now and `updatedAt` has no default. The store reports every
   * failing path at once; the error here names the first in schema order.
   */
  function Create(f: Fields, id: Id, now: Timestamp): (r: Result<Complaint, SchemaError>)
    ensures r.Success? <==>
      && f.description.Some? && f.description.value != ""
      && !CoordinateRejected(f.lat) && !CoordinateRejected(f.lng)
      && (f.status.None? || ParseStatus(f.status.value).Some?)
    ensures (f.description.None? || f.description == Some("")) ==> r == Failure(DescriptionRequired)
    ensures f.description.Some? && f.description.value != "" && CoordinateRejected(f.lat) ==>
      r == Failure(NotANumber("lat"))
    ensures f.description.Some? && f.description.value != "" && !CoordinateRejected(f.lat)
            && CoordinateRejected(f.lng) ==>
      r == Failure(NotANumber("lng"))
    ensures r.Success? ==>
      && r.value.id == id
      && Some(r.value.description) == f.description
      && r.value.email == f.email
      && r.value.lat == f.lat
      && r.value.lng == f.lng
      && r.value.photoUrl == f.photoUrl
      && r.value.createdAt == now
      && r.value.updatedAt.None?
      && (f.status.None? ==> r.value.status == Pending)
      && (f.status.Some? ==> StatusName(r.value.status) == f.status.value)
      && WellFormed(r.value)
  {
    if f.description.None? || f.description.value == "" then
      Failure(DescriptionRequired)
    else if CoordinateRejected(f.lat) then
      Failure(NotANumber("lat"))
    else if CoordinateRejected(f.lng) then
      Failure(NotANumber("lng"))
    else
      var status :=
        match f.status
        case None => Some(Pending)
        case Some(text) => ParseStatus(text);
      if status.None? then
        Failure(StatusNotInEnum(f.status.value))
      else
        Success(Complaint(id, f.description.value, f.email, f.lat, f.lng,
                          f.photoUrl, status.value, now, None))
  }
}

=== FILE: escape.dfy ===
/**
 * `escapeHtml` of the administrator page (`public/js/admin.js`): every
 * `& < > " '` becomes its character reference, every other character is
 * copied as it is.
 */
module HtmlEscape {
  import opened Wrappers

  /** The five characters the escaper replaces. */
  predicate Special(c: char)
  {
    c == '&' || c == '<' || c == '>' || c == '"' || c == '\''
  }

  /** The replacement of one character. */
  function EscapeChar(c: char): (r: string)
    ensures Special(c) ==> |r| > 1 && r[0] == '&' && r[|r| - 1] == ';'
    ensures !Special(c) ==> r == [c]
  {
    match c
    case '&' => "&amp;"
    case '<' => "&lt;"
    case '>' => "&gt;"
    case '"' => "&quot;"
    case '\'' => "&#39;"
    case _ => [c]
  }

  /** `s.replace(/[&<>"']/g, ...)`: each character replaced in order. */
  function Escape(s: string): string
  {
    if |s| == 0 then "" else EscapeChar(s[0]) + Escape(s[1..])
  }

  /** `escapeHtml(s)`: `null`, `undefined` and `''` all give `''`. */
  function EscapeHtml(s: Option<string>): (r: string)
    ensures s.None? ==> r == ""
    ensures s.Some? ==> r == Escape(s.value)
  {
    match s
    case None => ""
    case Some(t) => Escape(t)
  }

  /** Escaping distributes over concatenation. */
  lemma {:induction false} EscapeConcat(a: string, b: string)
    ensures Escape(a + b) == Escape(a) + Escape(b)
  {
    if |a| == 0 {
      assert a + b == b;
    } else {
      assert (a + b)[0] == a[0];
      assert (a + b)[1..] == a[1..] + b;
      EscapeConcat(a[1..], b);
    }
  }

  /** A string with none of the five characters escapes to itself. */
  lemma {:induction false} EscapePlain(s: string)
    requires forall i :: 0 <= i < |s| ==> !Special(s[i])
    ensures Escape(s) == s
  {
    if |s| > 0 {
      EscapePlain(s[1..]);
      assert s == [s[0]] + s[1..];
    }
  }

  /** The output of the escaper holds no `<`, `>`, `"` or `'`. */
  lemma {:induction false} EscapeNoMarkup(s: string)
    ensures forall i :: 0 <= i < |Escape(s)| ==> Escape(s)[i] !in "<>\"'"
  {
    if |s| > 0 {
      EscapeNoMarkup(s[1..]);
      var h := EscapeChar(s[0]);
      var t := Escape(s[1..]);
      assert forall i :: 0 <= i < |h| ==> h[i] !in "<>\"'";
      assert Escape(s) == h + t;
      forall i | 0 <= i < |h + t| ensures (h + t)[i] !in "<>\"'" {
        if i >= |h| {
          assert (h + t)[i] == t[i - |h|];
        }
      }
    }
  }

  /** Escaping never shortens, and keeps the length exactly when nothing needs escaping. */
  lemma {:induction false} EscapeLength(s: string)
    ensures |Escape(s)| >= |s|
    ensures |Escape(s)| == |s| <==> forall i :: 0 <= i < |s| ==> !Special(s[i])
  {
    if |s| > 0 {
      EscapeLength(s[1..]);
      assert forall i :: 1 <= i < |s| ==> s[i] == s[1..][i - 1];
      if forall i :: 0 <= i < |s[1..]| ==> !Special(s[1..][i]) {
        assert forall i :: 1 <= i < |s| ==> !Special(s[i]);
      }
    }
  }

  /**
   * Decoding of the five character references the escaper emits; every
   * other character is copied. This is the inverse the escaper is checked
   * against.
   */
  function Unescape(s: string): string
  {
    if |s| == 0 then ""
    else if "&amp;" <= s then "&" + Unescape(s[5..])
    else if "&lt;" <= s then "<" + Unescape(s[4..])
    else if "&gt;" <= s then ">" + Unescape(s[4..])
    else if "&quot;" <= s then "\"" + Unescape(s[6..])
    else if "&#39;" <= s then "'" + Unescape(s[5..])
    else [s[0]] + Unescape(s[1..])
  }

  /** Decoding reads one escaped character back and carries on with the rest. */
  lemma UnescapeStep(c: char, t: string)
    ensures Unescape(EscapeChar(c) + t) == [c] + Unescape(t)
  {
    var h := EscapeChar(c);
    assert (h + t)[|h|..] == t;
    var u := h + t;
    assert h <= u;
    if c == '<' {
      assert !("&amp;" <= u) by { assert u[1] == 'l'; }
    } else if c == '>' {
      assert !("&amp;" <= u) && !("&lt;" <= u) by { assert u[1] == 'g'; }
    } else if c == '"' {
      assert !("&amp;" <= u) && !("&lt;" <= u) && !("&gt;" <= u) by { assert u[1] == 'q'; }
    } else if c == '\'' {
      assert !("&amp;" <= u) && !("&lt;" <= u) && !("&gt;" <= u) && !("&quot;" <= u) by { assert u[1] == '#'; }
    } else if c != '&' {
      assert u[0] == c;
    }
  }

  /** Decoding the escaped text gives back the original. */
  lemma {:induction false} UnescapeEscape(s: string)
    ensures Unescape(Escape(s)) == s
  {
    if |s| > 0 {
      UnescapeEscape(s[1..]);
      UnescapeStep(s[0], Escape(s[1..]));
      assert s == [s[0]] + s[1..];
    }
  }

  /**
   * `escapeHtml` as the scan `String.prototype.replace` performs: one
   * pass over the input, appending each character's replacement.
   */
  method EscapeScan(s: string) returns (out: string)
    ensures out == Escape(s)
  {
    out := "";
    var i := 0;
    while i < |s|
      invariant 0 <= i <= |s|
      invariant out == Escape(s[..i])
    {
      EscapeConcat(s[..i], [s[i]]);
      assert s[..i + 1] == s[..i] + [s[i]];
      out := out + EscapeChar(s[i]);
      i := i + 1;
    }
    assert s[..i] == s;
  }
}

=== FILE: http.dfy ===
/** The JSON responses the handlers send, and JavaScript's truthiness of request fields. */
module Http {
  import opened Wrappers
  import opened ComplaintModel

  /** The JSON body of a response. */
  datatype Body =
    | Record(complaint: Complaint)        // a complaint document
    | Records(complaints: seq<Complaint>) // a list of complaint documents
    | Error(error: string)                // `{ error }`
    | Reply(reply: string)                // `{ reply }` from the chatbot
    | Token(token: string)                // `{ token }` from login

  datatype Response = Response(code: int, body: Body)

  const OkCode := 200
  const BadRequest := 400
  const Unauthorized := 401
  const NotFound := 404
  const ServerError := 500

  /**
   * A request field is truthy in JavaScript when it is present and, being a
   * string, not empty.
   */
  predicate Present(v: Option<string>)
  {
    v.Some? && v.value != ""
  }

  /** `v || null` on a string field: the empty string becomes `null`. */
  function OrNull(v: Option<string>): (r: Option<string>)
    ensures r.Some? <==> Present(v)
    ensures r.Some? ==> r == v
  {
    if Present(v) then v else None
  }
}

=== FILE: listing.dfy ===
/**
 * The complaint listings of `routes/complaints.js` and `server.js`:
 * `find(filter).sort({field: -1}).limit(n)` over the store.
 */
module Listing {
  import opened ComplaintModel
  import opened ComplaintStore

  /** The field a listing sorts on, descending. */
  datatype SortField = CreatedAt | UpdatedAt

  /** Cap of the administrator listing. */
  const AdminCap: nat := 100

  /** Cap of the public listing of resolved complaints. */
  const ResolvedCap: nat := 50

  /**
   * The sort key of a record. An absent `updatedAt` sorts below every
   * timestamp, as a missing field sorts lowest in the document store.
   */
  function Key(c: Complaint, f: SortField): int
  {
    match f
    case CreatedAt => c.createdAt
    case UpdatedAt =>
      match c.updatedAt
      case None => -1
      case Some(t) => t
  }

  /** `s` is ordered by `f`, newest first. */
  ghost predicate SortedDesc(s: seq<Complaint>, f: SortField)
  {
    forall i, j :: 0 <= i < j < |s| ==> Key(s[i], f) >= Key(s[j], f)
  }

  /** No record of `s` is newer than `b`. */
  ghost predicate AtMost(s: seq<Complaint>, f: SortField, b: int)
  {
    forall i :: 0 <= i < |s| ==> Key(s[i], f) <= b
  }

  /** Places `c` into `s` before the first record it is not older than. */
  function Insert(c: Complaint, s: seq<Complaint>, f: SortField): (r: seq<Complaint>)
    ensures multiset(r) == multiset(s) + multiset{c}
    ensures |r| == |s| + 1
  {
    if |s| == 0 || Key(c, f) >= Key(s[0], f) then [c] + s
    else
      assert s == [s[0]] + s[1..];
      [s[0]] + Insert(c, s[1..], f)
  }

  /** Insertion brings in no record newer than the bound the parts respect. */
  lemma {:induction false} InsertAtMost(c: Complaint, s: seq<Complaint>, f: SortField, b: int)
    requires Key(c, f) <= b && AtMost(s, f, b)
    ensures AtMost(Insert(c, s, f), f, b)
  {
    if |s| == 0 || Key(c, f) >= Key(s[0], f) {
      var r := [c] + s;
      assert forall i :: 0 < i < |r| ==> r[i] == s[i - 1];
    } else {
      InsertAtMost(c, s[1..], f, b);
      var t := Insert(c, s[1..], f);
      var r := [s[0]] + t;
      assert forall i :: 0 < i < |r| ==> r[i] == t[i - 1];
    }
  }

  /** Prefixing an ordered sequence with a record at least as new keeps it ordered. */
  lemma ConsSorted(x: Complaint, t: seq<Complaint>, f: SortField)
    requires SortedDesc(t, f) && AtMost(t, f, Key(x, f))
    ensures SortedDesc([x] + t, f)
  {
  }

  /** Inserting into an ordered sequence keeps it ordered. */
  lemma {:induction false} InsertSorted(c: Complaint, s: seq<Complaint>, f: SortField)
    requires SortedDesc(s, f)
    ensures SortedDesc(Insert(c, s, f), f)
  {
    if |s| == 0 || Key(c, f) >= Key(s[0], f) {
      ConsSorted(c, s, f);
    } else {
      var t := s[1..];
      assert SortedDesc(t, f) by {
        forall i, j | 0 <= i < j < |t| ensures Key(t[i], f) >= Key(t[j], f) {
          assert t[i] == s[i + 1] && t[j] == s[j + 1];
        }
      }
      assert AtMost(t, f, Key(s[0], f)) by {
        forall i | 0 <= i < |t| ensures Key(t[i], f) <= Key(s[0], f) {
          assert t[i] == s[i + 1];
        }
      }
      InsertSorted(c, t, f);
      InsertAtMost(c, t, f, Key(s[0], f));
      ConsSorted(s[0], Insert(c, t, f), f);
    }
  }

  /** `.sort({f: -1})`: the records of `s` ordered newest first. */
  function SortDesc(s: seq<Complaint>, f: SortField): (r: seq<Complaint>)
    ensures multiset(r) == multiset(s)
    ensures |r| == |s|
  {
    if |s| == 0 then []
    else
      assert s == [s[0]] + s[1..];
      Insert(s[0], SortDesc(s[1..], f), f)
  }

  /** Sorting yields an ordered sequence. */
  lemma {:induction false} SortDescSorted(s: seq<Complaint>, f: SortField)
    ensures SortedDesc(SortDesc(s, f), f)
  {
    if |s| > 0 {
      SortDescSorted(s[1..], f);
      InsertSorted(s[0], SortDesc(s[1..], f), f);
    }
  }

  /** `.limit(n)`: the first `n` records, or all of them when there are fewer. */
  function Take(s: seq<Complaint>, n: nat): (r: seq<Complaint>)
    ensures |r| == if |s| <= n then |s| else n
    ensures r == s[..|r|]
  {
    if |s| <= n then s else s[..n]
  }

  /** `find({status: 'Resolved'})`: every resolved record, as many times as it is stored. */
  function FilterResolved(s: seq<Complaint>): (r: seq<Complaint>)
    ensures forall c :: multiset(r)[c] == if c.status == Resolved then multiset(s)[c] else 0
    ensures forall c :: c in r <==> c in s && c.status == Resolved
    ensures |r| <= |s|
  {
    if |s| == 0 then []
    else
      assert s == [s[0]] + s[1..];
      if s[0].status == Resolved then [s[0]] + FilterResolved(s[1..])
      else FilterResolved(s[1..])
  }

  /** `find().sort({f: -1}).limit(n)`: the `n` newest records of `s` by `f`. */
  function TopN(s: seq<Complaint>, f: SortField, n: nat): (r: seq<Complaint>)
    ensures |r| == if |s| <= n then |s| else n
    ensures multiset(r) <= multiset(s)
  {
    var t := SortDesc(s, f);
    var r := Take(t, n);
    assert t == r + t[|r|..];
    r
  }

  /** The top-`n` listing is ordered newest first. */
  lemma TopNSorted(s: seq<Complaint>, f: SortField, n: nat)
    ensures SortedDesc(TopN(s, f, n), f)
  {
    var t := SortDesc(s, f);
    SortDescSorted(s, f);
    var r := TopN(s, f, n);
    forall i, j | 0 <= i < j < |r| ensures Key(r[i], f) >= Key(r[j], f) {
      assert r[i] == t[i] && r[j] == t[j];
    }
  }

  /** In an ordered sequence, nothing after a cut point is newer than anything before it. */
  lemma SortedSplit(t: seq<Complaint>, f: SortField, k: nat)
    requires SortedDesc(t, f) && k <= |t|
    ensures forall x, y :: x in t[k..] && y in t[..k] ==> Key(x, f) <= Key(y, f)
  {
  }

  /** No record the top-`n` listing leaves out is newer than one it returns. */
  lemma TopNNewest(s: seq<Complaint>, f: SortField, n: nat)
    ensures forall x, y :: x in multiset(s) - multiset(TopN(s, f, n)) && y in TopN(s, f, n) ==>
      Key(x, f) <= Key(y, f)
  {
    var t := SortDesc(s, f);
    SortDescSorted(s, f);
    var r := TopN(s, f, n);
    var k := |r|;
    assert r == t[..k];
    assert t == t[..k] + t[k..];
    assert multiset(s) - multiset(r) == multiset(t[k..]);
    SortedSplit(t, f, k);
    forall x | x in multiset(s) - multiset(r) ensures x in t[k..] {
      assert x in multiset(t[k..]);
    }
  }

  /** The administrator listing: newest created first, at most 100. */
  function AdminListing(s: Store): (r: seq<Complaint>)
    ensures |r| == if |s| <= AdminCap then |s| else AdminCap
    ensures multiset(r) <= multiset(s)
  {
    TopN(s, CreatedAt, AdminCap)
  }

  /** The administrator listing is ordered newest created first, and nothing it leaves out is newer. */
  lemma AdminListingNewest(s: Store)
    ensures SortedDesc(AdminListing(s), CreatedAt)
    ensures forall x, y :: x in multiset(s) - multiset(AdminListing(s)) && y in AdminListing(s) ==>
      x.createdAt <= y.createdAt
  {
    var r := AdminListing(s);
    assert r == TopN(s, CreatedAt, AdminCap);
    TopNSorted(s, CreatedAt, AdminCap);
    TopNNewest(s, CreatedAt, AdminCap);
    forall x, y | x in multiset(s) - multiset(r) && y in r ensures x.createdAt <= y.createdAt {
      assert Key(x, CreatedAt) <= Key(y, CreatedAt);
    }
  }

  /** The public listing: resolved only, most recently updated first, at most 50. */
  function ResolvedListing(s: Store): (r: seq<Complaint>)
    ensures forall c :: c in r ==> c in s && c.status == Resolved
    ensures multiset(r) <= multiset(FilterResolved(s))
    ensures multiset(r) <= multiset(s)
    ensures |r| == if |FilterResolved(s)| <= ResolvedCap then |FilterResolved(s)| else ResolvedCap
  {
    var q := FilterResolved(s);
    var r := TopN(q, UpdatedAt, ResolvedCap);
    assert forall c :: c in r ==> c in multiset(q);
    r
  }

  /** The public listing is ordered by last update, and no resolved record it leaves out was updated later. */
  lemma ResolvedListingNewest(s: Store)
    ensures SortedDesc(ResolvedListing(s), UpdatedAt)
    ensures forall x, y :: x in multiset(FilterResolved(s)) - multiset(ResolvedListing(s)) && y in ResolvedListing(s) ==>
      Key(x, UpdatedAt) <= Key(y, UpdatedAt)
  {
    assert ResolvedListing(s) == TopN(FilterResolved(s), UpdatedAt, ResolvedCap);
    TopNSorted(FilterResolved(s), UpdatedAt, ResolvedCap);
    TopNNewest(FilterResolved(s), UpdatedAt, ResolvedCap);
  }

  /** A sub-multiset of the same size is the whole multiset. */
  lemma MultisetSubsetEqualSize(a: multiset<Complaint>, b: multiset<Complaint>)
    requires a <= b && |a| == |b|
    ensures a == b
  {
    var d := b - a;
    assert b == a + d;
    assert |d| == 0;
  }

  /** When there are at most 50 resolved records, the public listing shows all of them. */
  lemma ResolvedListingComplete(s: Store)
    requires |FilterResolved(s)| <= ResolvedCap
    ensures forall c :: c in s && c.status == Resolved ==> c in ResolvedListing(s)
  {
    var q := FilterResolved(s);
    var r := ResolvedListing(s);
    assert multiset(r) == multiset(q) by {
      assert multiset(r) <= multiset(q) && |multiset(r)| == |multiset(q)|;
      MultisetSubsetEqualSize(multiset(r), multiset(q));
    }
    forall c | c in s && c.status == Resolved ensures c in r {
      assert c in multiset(q);
    }
  }
}

=== FILE: router.dfy ===
/**
 * The complaint router of `routes/complaints.js`: the same create and
 * lookup as `server.js`, a listing capped at 100, a status update that
 * awaits its email inside a `try`, and a resolved listing capped at 50.
 */
module ComplaintRouter {
  import opened Wrappers
  import opened ComplaintModel
  import opened ComplaintStore
  import opened Http
  import opened Listing
  import opened Workflow
  import Auth
  import Text

  /** `GET /`: the 100 newest complaints, newest created first. */
  function List(store: Store, auth: Auth.Decision): (r: Response)
    ensures auth.Reject? ==> r == auth.response
    ensures auth.Proceed? ==>
      && r.code == OkCode && r.body.Records?
      && r.body.complaints == AdminListing(store)
      && |r.body.complaints| == (if |store| <= AdminCap then |store| else AdminCap)
      && multiset(r.body.complaints) <= multiset(store)
  {
    match auth
    case Reject(resp) => resp
    case Proceed(_) => Response(OkCode, Records(AdminListing(store)))
  }

  /** Without a valid bearer token the listing answers 401 and shows nothing. */
  lemma ListUnauthorized(store: Store, header: Option<string>, verify: string -> Option<string>,
                         findUser: string -> Option<Auth.User>)
    requires !(Auth.BearerPrefix <= Auth.HeaderText(header))
    ensures List(store, Auth.Authenticate(header, verify, findUser))
         == Response(Unauthorized, Error("missing token"))
  {
  }

  /** `GET /resolved`: the 50 most recently updated resolved complaints. */
  function ResolvedList(store: Store): (r: Response)
    ensures r.code == OkCode && r.body.Records?
    ensures r.body.complaints == ResolvedListing(store)
    ensures forall c :: c in r.body.complaints ==> c in store && c.status == Resolved
    ensures |r.body.complaints| <= ResolvedCap
  {
    Response(OkCode, Records(ResolvedListing(store)))
  }

  predicate HexDigit(c: char)
  {
    '0' <= c <= '9' || 'a' <= c <= 'f' || 'A' <= c <= 'F'
  }

  /**
   * Whether an identifier casts to a MongoDB ObjectId: exactly 24
   * hexadecimal digits. Any other text makes `findById` reject with a
   * cast error, which this router's `catch` answers with 500.
   */
  predicate ObjectIdText(id: Id)
  {
    |id| == 24 && forall i :: 0 <= i < |id| ==> HexDigit(id[i])
  }

  /** Lower-casing neither makes nor breaks an ObjectId. */
  lemma ObjectIdTextIgnoresCase(id: Id)
    ensures ObjectIdText(Text.Lower(id)) <==> ObjectIdText(id)
  {
    var l := Text.Lower(id);
    assert forall i :: 0 <= i < |id| ==> (HexDigit(l[i]) <==> HexDigit(id[i]));
  }

  /**
   * `GET /:id` in this router: a malformed id is a 500. A well-formed one
   * names the same ObjectId in either letter case; stored identifiers are
   * the lower-case form the document store prints, so the lookup is by
   * that form.
   */
  function FindOne(store: Store, id: Id): (r: Response)
    ensures !ObjectIdText(id) ==> r == Response(ServerError, Error("server error"))
    ensures ObjectIdText(id) ==> r == Lookup(store, Text.Lower(id))
    ensures r.code == OkCode <==> ObjectIdText(id) && HasId(store, Text.Lower(id))
  {
    if ObjectIdText(id) then Lookup(store, Text.Lower(id))
    else Response(ServerError, Error("server error"))
  }

  /** The letter case of a requested id never changes the answer. */
  lemma FindOneIgnoresCase(store: Store, id: Id)
    ensures FindOne(store, id) == FindOne(store, Text.Lower(id))
  {
    ObjectIdTextIgnoresCase(id);
    Text.LowerIdempotent(id);
  }

  /**
   * The status change of `PUT /:id/status`: the status is checked first,
   * then a malformed id fails the cast with 500 and leaves the store alone;
   * a well-formed id is looked up in its lower-case form.
   */
  function ChangeOne(store: Store, id: Id, status: Option<string>, now: Timestamp): (o: Outcome)
    ensures o.response.code != OkCode ==> o.store == store
    ensures !Present(status) ==> o == Outcome(Response(BadRequest, Error("status required")), store)
    ensures Present(status) && !ObjectIdText(id) ==>
      o == Outcome(Response(ServerError, Error("server error")), store)
    ensures Present(status) && ObjectIdText(id) ==> o == ChangeStatus(store, Text.Lower(id), status, now)
    ensures o.response.code == OkCode <==>
      && Present(status) && ObjectIdText(id) && HasId(store, Text.Lower(id))
      && ParseStatus(status.value).Some?
  {
    if !Present(status) then
      Outcome(Response(BadRequest, Error("status required")), store)
    else if !ObjectIdText(id) then
      Outcome(Response(ServerError, Error("server error")), store)
    else ChangeStatus(store, Text.Lower(id), status, now)
  }

  /** The letter case of the id in `PUT /:id/status` never changes the outcome. */
  lemma ChangeOneIgnoresCase(store: Store, id: Id, status: Option<string>, now: Timestamp)
    ensures ChangeOne(store, id, status, now) == ChangeOne(store, Text.Lower(id), status, now)
  {
    ObjectIdTextIgnoresCase(id);
    Text.LowerIdempotent(id);
  }

  /** The email this router composes for the updated complaint. */
  function StatusEmail(c: Complaint): Notice
    requires c.email.Some?
  {
    Notice(c.email.value, NoticeSubject(c),
           "Your complaint status has been updated to: " + StatusName(c.status)
           + "\n\nDescription: " + c.description)
  }

  /**
   * `PUT /:id/status`. The email is attempted when the complaint has an
   * address and `EMAIL_USER` is set; a failure to send is caught, so the
   * updated record is returned either way.
   */
  function SetStatus(store: Store, auth: Auth.Decision, id: Id, status: Option<string>,
                     now: Timestamp, mail: MailConfig): (r: StatusOutcome)
    ensures r.outcome == Gate(auth, store, ChangeOne(store, id, status, now))
    ensures r.notice.Some? <==>
      && r.outcome.response.code == OkCode && auth.Proceed?
      && Present(mail.user) && Present(r.outcome.response.body.complaint.email)
    ensures r.notice.Some? ==>
      var c := r.outcome.response.body.complaint;
      r.notice.value.to == c.email.value && r.notice.value.subject == NoticeSubject(c)
  {
    var o := Gate(auth, store, ChangeOne(store, id, status, now));
    if auth.Proceed? && o.response.code == OkCode && Present(mail.user)
       && Present(o.response.body.complaint.email)
    then StatusOutcome(o, Some(StatusEmail(o.response.body.complaint)))
    else StatusOutcome(o, None)
  }

  /** A one-segment path pattern below the mount point: `/:id` or a literal such as `/resolved`. */
  datatype Pattern = IdParam | Literal(text: string)

  /**
   * Whether a path segment matches a pattern: a parameter takes any
   * non-empty segment, a literal matches regardless of letter case (the
   * Express router default).
   */
  predicate Matches(p: Pattern, segment: string)
  {
    match p
    case IdParam => segment != ""
    case Literal(t) => Text.Lower(segment) == Text.Lower(t)
  }

  /** The two one-segment GET handlers of the router. */
  datatype GetHandler = GetOne | GetResolved

  datatype Route = Route(pattern: Pattern, handler: GetHandler)

  /** Express dispatch: the first route, in registration order, whose pattern matches. */
  function Dispatch(routes: seq<Route>, segment: string): (r: Option<nat>)
    ensures r.Some? ==>
      && r.value < |routes|
      && Matches(routes[r.value].pattern, segment)
      && forall j :: 0 <= j < r.value ==> !Matches(routes[j].pattern, segment)
    ensures r.None? ==> forall j :: 0 <= j < |routes| ==> !Matches(routes[j].pattern, segment)
  {
    if |routes| == 0 then None
    else if Matches(routes[0].pattern, segment) then Some(0)
    else
      match Dispatch(routes[1..], segment)
      case None => None
      case Some(k) => Some(k + 1)
  }

  /** The GET routes in the order the file registers them: `/:id`, then `/resolved`. */
  const RegisteredGets := [Route(IdParam, GetOne), Route(Literal("resolved"), GetResolved)]

  /** The order that lets `/resolved` be reached: the literal before the parameter. */
  const IntendedGets := [Route(Literal("resolved"), GetResolved), Route(IdParam, GetOne)]

  /** `GET /<segment>` through the given route table; `None` when no route matches. */
  function HandleGet(store: Store, routes: seq<Route>, segment: string): Option<Response>
  {
    match Dispatch(routes, segment)
    case None => None
    case Some(i) =>
      match routes[i].handler
      case GetOne => Some(FindOne(store, segment))
      case GetResolved => Some(ResolvedList(store))
  }

  /** The route literal `resolved` is already lower case. */
  lemma ResolvedIsLower()
    ensures Text.Lower("resolved") == "resolved"
  {
    var r := "resolved";
    assert forall i :: 0 <= i < |r| ==> !('A' <= r[i] <= 'Z');
    Text.LowerUnchanged(r);
  }

  /** As registered, every non-empty segment goes to `/:id` and the empty one nowhere. */
  lemma DispatchRegistered(segment: string)
    ensures Dispatch(RegisteredGets, segment) == if segment != "" then Some(0) else None
  {
    if segment == "" {
      assert !Matches(RegisteredGets[0].pattern, segment);
      assert !Matches(RegisteredGets[1].pattern, segment) by {
        assert |Text.Lower(segment)| == 0;
      }
    }
  }

  /** With the literal first, a segment reading `resolved` goes to the listing, any other to `/:id`. */
  lemma DispatchIntended(segment: string)
    ensures Dispatch(IntendedGets, segment) ==
      if Text.Lower(segment) == "resolved" then Some(0)
      else if segment != "" then Some(1) else None
  {
    ResolvedIsLower();
    if Text.Lower(segment) != "resolved" {
      assert !Matches(IntendedGets[0].pattern, segment);
      if segment != "" {
        assert Matches(IntendedGets[1].pattern, segment);
      }
    }
  }

  /**
   * As registered, the resolved listing is unreachable: `GET /resolved`, in
   * any letter case, is taken by `/:id`, and "resolved" is no ObjectId, so
   * the answer is the cast error's 500.
   */
  lemma ResolvedShadowed(store: Store, segment: string)
    ensures Dispatch(RegisteredGets, segment) != Some(1)
    ensures segment != "" ==> HandleGet(store, RegisteredGets, segment) == Some(FindOne(store, segment))
    ensures Text.Lower(segment) == "resolved" ==>
      HandleGet(store, RegisteredGets, segment) == Some(Response(ServerError, Error("server error")))
  {
    DispatchRegistered(segment);
    if Text.Lower(segment) == "resolved" {
      assert |segment| == 8;
    }
  }

  /**
   * With the literal registered first, `GET /resolved` in any letter case
   * reaches the resolved listing and every other segment is still a lookup
   * by id.
   */
  lemma IntendedDispatch(store: Store, segment: string)
    ensures Text.Lower(segment) == "resolved" ==>
      HandleGet(store, IntendedGets, segment) == Some(ResolvedList(store))
    ensures segment != "" && Text.Lower(segment) != "resolved" ==>
      HandleGet(store, IntendedGets, segment) == Some(FindOne(store, segment))
    ensures Text.Lower(segment) != "resolved" ==>
      HandleGet(store, IntendedGets, segment) == HandleGet(store, RegisteredGets, segment)
  {
    DispatchRegistered(segment);
    DispatchIntended(segment);
  }
}

=== FILE: server_api.dfy ===
/**
 * The complaint routes `server.js` itself mounts: the administrator
 * listing, the authenticated status update with its fire-and-forget
 * email, and the public listing of resolved complaints. Creation and
 * lookup are the shared `Workflow` handlers; login is `Auth.Login`; the
 * chatbot is `Chatbot.Respond`.
 */
module ServerApi {
  import opened Wrappers
  import opened ComplaintModel
  import opened ComplaintStore
  import opened Http
  import opened Listing
  import opened Workflow
  import Auth

  /** `GET /api/complaints`: every complaint, newest created first, no cap. */
  function ListAll(store: Store, auth: Auth.Decision): (r: Response)
    ensures auth.Reject? ==> r == auth.response
    ensures auth.Proceed? ==>
      && r.code == OkCode && r.body.Records?
      && multiset(r.body.complaints) == multiset(store)
  {
    match auth
    case Reject(resp) => resp
    case Proceed(_) => Response(OkCode, Records(SortDesc(store, CreatedAt)))
  }

  /** The uncapped administrator listing is ordered newest created first. */
  lemma ListAllSorted(store: Store, user: Auth.User)
    ensures SortedDesc(ListAll(store, Auth.Proceed(user)).body.complaints, CreatedAt)
  {
    SortDescSorted(store, CreatedAt);
  }

  /** `GET /api/resolved`: every resolved complaint, most recently updated first, no cap. */
  function ResolvedAll(store: Store): (r: Response)
    ensures r.code == OkCode && r.body.Records?
    ensures forall c :: c in r.body.complaints <==> c in store && c.status == Resolved
    ensures forall c :: multiset(r.body.complaints)[c] == if c.status == Resolved then multiset(store)[c] else 0
  {
    var rs := SortDesc(FilterResolved(store), UpdatedAt);
    assert forall c :: c in rs <==> c in multiset(FilterResolved(store));
    Response(OkCode, Records(rs))
  }

  /** The uncapped resolved listing is ordered by last update. */
  lemma ResolvedAllSorted(store: Store)
    ensures SortedDesc(ResolvedAll(store).body.complaints, UpdatedAt)
  {
    SortDescSorted(FilterResolved(store), UpdatedAt);
  }

  /** `sendStatusEmail` goes out only when the transporter was configured with both settings. */
  predicate TransporterConfigured(mail: MailConfig)
  {
    Present(mail.user) && Present(mail.password)
  }

  /** The email `sendStatusEmail` composes for the updated complaint. */
  function StatusEmail(c: Complaint): Notice
    requires c.email.Some?
  {
    Notice(c.email.value, NoticeSubject(c),
           "Your complaint is now: " + StatusName(c.status) + "\nDescription: " + c.description)
  }

  /**
   * `PUT /api/complaints/:id/status`. The email is not awaited, so it has
   * no say in the response: only whether one is started depends on the
   * mail settings.
   */
  function SetStatus(store: Store, auth: Auth.Decision, id: Id, status: Option<string>,
                     now: Timestamp, mail: MailConfig): (r: StatusOutcome)
    ensures r.outcome == Gate(auth, store, ChangeStatus(store, id, status, now))
    ensures r.notice.Some? <==>
      && r.outcome.response.code == OkCode && auth.Proceed?
      && TransporterConfigured(mail) && Present(r.outcome.response.body.complaint.email)
    ensures r.notice.Some? ==>
      var c := r.outcome.response.body.complaint;
      r.notice.value.to == c.email.value && r.notice.value.subject == NoticeSubject(c)
  {
    var o := Gate(auth, store, ChangeStatus(store, id, status, now));
    if auth.Proceed? && o.response.code == OkCode && TransporterConfigured(mail)
       && Present(o.response.body.complaint.email)
    then StatusOutcome(o, Some(StatusEmail(o.response.body.complaint)))
    else StatusOutcome(o, None)
  }

  /** Whatever the mail settings, the response and the store come out the same. */
  lemma SetStatusIgnoresMail(store: Store, auth: Auth.Decision, id: Id, status: Option<string>,
                             now: Timestamp, m1: MailConfig, m2: MailConfig)
    ensures SetStatus(store, auth, id, status, now, m1).outcome
         == SetStatus(store, auth, id, status, now, m2).outcome
  {
  }

  /** Without a valid token nothing is read or changed: the middleware's 401 is the answer. */
  lemma SetStatusUnauthorized(store: Store, header: Option<string>, verify: string -> Option<string>,
                              findUser: string -> Option<Auth.User>, id: Id, status: Option<string>,
                              now: Timestamp, mail: MailConfig)
    requires Auth.Authenticate(header, verify, findUser).Reject?
    ensures var r := SetStatus(store, Auth.Authenticate(header, verify, findUser), id, status, now, mail);
            r.outcome.response.code == Unauthorized && r.outcome.store == store && r.notice.None?
  {
  }
}

=== FILE: store.dfy ===
/**
 * The complaint store of `db.js`: a list of records with append,
 * find-first-by-id and update-status-in-place. The JSON file behind it is
 * reduced to the three states `readAll` can meet.
 */
module ComplaintStore {
  import opened Wrappers
  import opened ComplaintModel

  /** The records in insertion order. */
  type Store = seq<Complaint>

  /** What the backing data file holds when it is read. */
  datatype DataFile = Missing | Empty | Stored(records: Store)

  /**
   * `readAll`: a missing file is first created holding the empty list, and
   * an empty file (zero characters) parses as the empty list. Returns the records and the file
   * as it is afterwards.
   */
  function ReadAll(f: DataFile): (r: (Store, DataFile))
    ensures f.Stored? ==> r == (f.records, f)
    ensures f.Missing? ==> r == ([], Stored([]))
    ensures f.Empty? ==> r.0 == [] && r.1 == f
  {
    match f
    case Missing => ([], Stored([]))
    case Empty => ([], Empty)
    case Stored(s) => (s, f)
  }

  /** `writeAll`: the file holds the serialised records, never empty text. */
  function WriteAll(s: Store): (f: DataFile)
    ensures !f.Missing? && !f.Empty?
  {
    Stored(s)
  }

  /** What was written is what the next read returns, and that read leaves the file alone. */
  lemma ReadAfterWrite(s: Store)
    ensures ReadAll(WriteAll(s)) == (s, WriteAll(s))
  {
  }

  /** After a read the file exists, and a second read sees the same records and keeps the file. */
  lemma ReadAllStable(f: DataFile)
    ensures !ReadAll(f).1.Missing?
    ensures ReadAll(ReadAll(f).1) == ReadAll(f)
  {
  }

  /** True when some record carries `id`. */
  ghost predicate HasId(s: Store, id: Id)
  {
    exists i :: 0 <= i < |s| && s[i].id == id
  }

  /** No two records share an identifier, as the document store guarantees for `_id`. */
  ghost predicate UniqueIds(s: Store)
  {
    forall i, j :: 0 <= i < j < |s| ==> s[i].id != s[j].id
  }

  /** `findIndex`: the position of the first record carrying `id`. */
  function FindIndex(s: Store, id: Id): (r: Option<nat>)
    ensures r.Some? ==>
      && r.value < |s|
      && s[r.value].id == id
      && forall j :: 0 <= j < r.value ==> s[j].id != id
    ensures r.None? <==> !HasId(s, id)
  {
    if |s| == 0 then None
    else if s[0].id == id then Some(0)
    else
      match FindIndex(s[1..], id)
      case None => None
      case Some(k) => Some(k + 1)
  }

  /** `addComplaint`: appends `c` and hands it back. */
  function Add(s: Store, c: Complaint): (r: (Store, Complaint))
    ensures |r.0| == |s| + 1
    ensures r.0[..|s|] == s && r.0[|s|] == c
    ensures r.1 == c
  {
    (s + [c], c)
  }

  /** `getComplaint`: the first record carrying `id`, or `None` (`null`). */
  function Get(s: Store, id: Id): (r: Option<Complaint>)
    ensures r.None? <==> !HasId(s, id)
    ensures r.Some? ==> r.value.id == id && r.value in s
    ensures r.Some? ==> exists i :: 0 <= i < |s| && s[i] == r.value &&
                          forall j :: 0 <= j < i ==> s[j].id != id
  {
    match FindIndex(s, id)
    case None => None
    case Some(i) => Some(s[i])
  }

  /** The record `c` with its status set and its update time stamped. */
  function Stamp(c: Complaint, status: Status, now: Timestamp): Complaint
  {
    c.(status := status, updatedAt := Some(now))
  }

  /** `b` differs from `a` in at most `status` and `updatedAt`. */
  predicate OnlyStatusChanged(a: Complaint, b: Complaint)
  {
    a.(status := b.status, updatedAt := b.updatedAt) == b
  }

  /**
   * `updateComplaintStatus`: on an absent id nothing is written and `None`
   * comes back; otherwise only the first matching record changes, only in
   * `status` and `updatedAt`, and the changed record comes back.
   */
  function UpdateStatus(s: Store, id: Id, status: Status, now: Timestamp): (r: (Store, Option<Complaint>))
    ensures r.1.None? <==> !HasId(s, id)
    ensures r.1.None? ==> r.0 == s
    ensures |r.0| == |s|
    ensures r.1.Some? ==>
      exists i :: 0 <= i < |s| && s[i].id == id
        && (forall j :: 0 <= j < i ==> s[j].id != id)
        && r.0[i] == r.1.value
        && OnlyStatusChanged(s[i], r.0[i])
        && r.0[i].status == status && r.0[i].updatedAt == Some(now)
        && (forall j :: 0 <= j < |s| && j != i ==> r.0[j] == s[j])
  {
    match FindIndex(s, id)
    case None => (s, None)
    case Some(i) =>
      var c := Stamp(s[i], status, now);
      (s[i := c], Some(c))
  }

  /** Reading back after an update observes exactly the updated record. */
  lemma GetAfterUpdate(s: Store, id: Id, status: Status, now: Timestamp)
    ensures Get(UpdateStatus(s, id, status, now).0, id) == UpdateStatus(s, id, status, now).1
  {
  }

  /** Reading back after an append: earlier records win, else the new one. */
  lemma GetAfterAdd(s: Store, c: Complaint, id: Id)
    ensures Get(Add(s, c).0, id) ==
      if HasId(s, id) then Get(s, id)
      else if c.id == id then Some(c)
      else None
  {
  }

  /**
   * Setting the same status twice leaves the store as one update at the
   * later time would: the status stays put and only the update time moves.
   */
  lemma UpdateStatusIdempotent(s: Store, id: Id, status: Status, t1: Timestamp, t2: Timestamp)
    ensures UpdateStatus(UpdateStatus(s, id, status, t1).0, id, status, t2).0
         == UpdateStatus(s, id, status, t2).0
  {
  }

  /** A status update keeps every record well formed when the clock has not run backwards. */
  lemma UpdatePreservesWellFormed(s: Store, id: Id, status: Status, now: Timestamp)
    requires forall k :: 0 <= k < |s| ==> WellFormed(s[k])
    requires forall k :: 0 <= k < |s| ==> s[k].createdAt <= now
    ensures forall k :: 0 <= k < |s| ==> WellFormed(UpdateStatus(s, id, status, now).0[k])
  {
  }

  /** `addComplaint` on the file: read, append, write back, return the record. */
  function AddComplaint(f: DataFile, c: Complaint): (r: (DataFile, Complaint))
    ensures ReadAll(r.0).0 == ReadAll(f).0 + [c]
    ensures r.1 == c
  {
    var (s', saved) := Add(ReadAll(f).0, c);
    (WriteAll(s'), saved)
  }

  /** `getComplaint` on the file: the first record with the id, and the file as the read left it. */
  function GetComplaint(f: DataFile, id: Id): (r: (Option<Complaint>, DataFile))
    ensures r.0.None? <==> !HasId(ReadAll(f).0, id)
    ensures r.0.Some? ==> r.0.value.id == id && r.0.value in ReadAll(f).0
    ensures r.1 == ReadAll(f).1
  {
    (Get(ReadAll(f).0, id), ReadAll(f).1)
  }

  /**
   * `updateComplaintStatus` on the file: an absent id writes nothing (the
   * file is as the read left it); otherwise the updated list is written.
   */
  function UpdateComplaintStatus(f: DataFile, id: Id, status: Status, now: Timestamp): (r: (DataFile, Option<Complaint>))
    ensures r.1.None? <==> !HasId(ReadAll(f).0, id)
    ensures r.1.None? ==> r.0 == ReadAll(f).1
    ensures ReadAll(r.0).0 == UpdateStatus(ReadAll(f).0, id, status, now).0
    ensures r.1.Some? ==> r.1.value.id == id && r.1.value.status == status && r.1.value.updatedAt == Some(now)
  {
    var (s', updated) := UpdateStatus(ReadAll(f).0, id, status, now);
    if updated.None? then (ReadAll(f).1, None) else (WriteAll(s'), updated)
  }

  /** A complaint added to the file is found there by its id unless an earlier record has it. */
  lemma {:induction false} GetComplaintAfterAdd(f: DataFile, c: Complaint)
    ensures var g := GetComplaint(AddComplaint(f, c).0, c.id).0;
            g == if HasId(ReadAll(f).0, c.id) then Get(ReadAll(f).0, c.id) else Some(c)
  {
    var s := ReadAll(f).0;
    ReadAfterWrite(s + [c]);
    GetAfterAdd(s, c, c.id);
  }

  /** Reading the file after a status update gives the record the update returned. */
  lemma {:induction false} GetComplaintAfterUpdate(f: DataFile, id: Id, status: Status, now: Timestamp)
    ensures var u := UpdateComplaintStatus(f, id, status, now);
            GetComplaint(u.0, id).0 == u.1
  {
    var s := ReadAll(f).0;
    ReadAllStable(f);
    GetAfterUpdate(s, id, status, now);
  }
}

=== FILE: text.dfy ===
/**
 * The JavaScript string primitives the handlers rely on: `toLowerCase`
 * and whether `parseFloat` finds a number at the start of a string.
 */
module Text {

  /** `toLowerCase` on one character; only ASCII letters are mapped. */
  function LowerChar(c: char): char
  {
    if 'A' <= c <= 'Z' then (c as int + 32) as char else c
  }

  /** `toLowerCase` on a string. */
  function Lower(s: string): (r: string)
    ensures |r| == |s|
    ensures forall i :: 0 <= i < |s| ==> r[i] == LowerChar(s[i])
  {
    if |s| == 0 then "" else [LowerChar(s[0])] + Lower(s[1..])
  }

  /** Lower-casing twice is lower-casing once. */
  lemma LowerIdempotent(s: string)
    ensures Lower(Lower(s)) == Lower(s)
  {
  }

  /** A string without upper-case ASCII letters is its own lower-case form. */
  lemma {:induction false} LowerUnchanged(s: string)
    requires forall i :: 0 <= i < |s| ==> !('A' <= s[i] <= 'Z')
    ensures Lower(s) == s
  {
    if |s| > 0 {
      LowerUnchanged(s[1..]);
    }
  }

  /** The white space `parseFloat` skips before the number. */
  predicate IsJsSpace(c: char)
  {
    || c == ' ' || c == '\t' || c == '\n' || c == '\r'
    || c == '\U{B}' || c == '\U{C}'      // vertical tab, form feed
    || c == '\U{A0}' || c == '\U{FEFF}'  // no-break space, byte order mark
    || c == '\U{2028}' || c == '\U{2029}' // line and paragraph separators
  }

  /** The string with its leading white space removed. */
  function TrimStart(s: string): (r: string)
    ensures |r| <= |s| && r == s[|s| - |r|..]
    ensures |r| > 0 ==> !IsJsSpace(r[0])
    ensures forall i :: 0 <= i < |s| - |r| ==> IsJsSpace(s[i])
  {
    if |s| > 0 && IsJsSpace(s[0]) then TrimStart(s[1..]) else s
  }

  predicate IsDigit(c: char)
  {
    '0' <= c <= '9'
  }

  /**
   * The text, past any sign, starts a decimal literal: a digit, a point
   * followed by a digit, or `Infinity`.
   */
  predicate StartsUnsignedNumber(t: string)
  {
    || (|t| > 0 && IsDigit(t[0]))
    || (|t| > 1 && t[0] == '.' && IsDigit(t[1]))
    || "Infinity" <= t
  }

  /** `parseFloat(s)` is not `NaN`: after white space and an optional sign, a number begins. */
  predicate ParsesAsNumber(s: string)
  {
    var t := TrimStart(s);
    if |t| > 0 && (t[0] == '+' || t[0] == '-') then StartsUnsignedNumber(t[1..])
    else StartsUnsignedNumber(t)
  }

  /** Leading white space is dropped whatever follows it. */
  lemma {:induction false} TrimStartSkipsSpaces(w: string, s: string)
    requires forall i :: 0 <= i < |w| ==> IsJsSpace(w[i])
    ensures TrimStart(w + s) == TrimStart(s)
  {
    var ws := w + s;
    if |w| == 0 {
      assert ws == s;
    } else {
      assert ws[0] == w[0] && IsJsSpace(ws[0]);
      assert ws[1..] == w[1..] + s;
      TrimStartSkipsSpaces(w[1..], s);
    }
  }

  /** White space before a coordinate never changes whether it parses. */
  lemma LeadingSpacesIgnored(w: string, s: string)
    requires forall i :: 0 <= i < |w| ==> IsJsSpace(w[i])
    ensures ParsesAsNumber(w + s) == ParsesAsNumber(s)
  {
    TrimStartSkipsSpaces(w, s);
  }

  /** Text that starts with a digit parses, whatever follows. */
  lemma DigitStartParses(s: string)
    requires |s| > 0 && IsDigit(s[0])
    ensures ParsesAsNumber(s)
  {
    assert !IsJsSpace(s[0]);
    assert TrimStart(s) == s;
  }

  /**
   * Past the white space, anything but a digit, a sign, a point or the
   * `I` of `Infinity` gives `NaN`.
   */
  lemma OtherStartRejected(s: string)
    requires var t := TrimStart(s);
      |t| == 0 || (!IsDigit(t[0]) && t[0] != '+' && t[0] != '-' && t[0] != '.' && t[0] != 'I')
    ensures !ParsesAsNumber(s)
  {
    var t := TrimStart(s);
    if |t| > 0 {
      assert !(t[0] == '+' || t[0] == '-');
      assert !("Infinity" <= t) by { assert "Infinity"[0] == 'I'; }
      assert !StartsUnsignedNumber(t);
    }
  }

  /** A coordinate as the form sends it parses. */
  lemma ParsesAsNumberExample()
    ensures ParsesAsNumber("-12.5")
  {
    var s := "-12.5";
    assert s[0] == '-' && !IsJsSpace(s[0]);
    assert TrimStart(s) == s;
    assert s[1..][0] == '1' && IsDigit(s[1..][0]);
    assert StartsUnsignedNumber(s[1..]);
  }

  /** A word does not parse: `parseFloat` gives `NaN`. */
  lemma WordIsNotANumber()
    ensures !ParsesAsNumber("abc")
  {
    assert !IsJsSpace('a');
    assert TrimStart("abc") == "abc";
    assert !("Infinity" <= "abc") by { assert "abc"[0] != 'I'; }
  }
}

=== FILE: workflow.dfy ===
/**
 * The complaint request-handler logic that `server.js` and
 * `routes/complaints.js` share: create, get by id and status update, each a
 * function from the store and the request to the response and the new
 * store. The photo upload and the clock are parameters.
 */
module Workflow {
  import opened Wrappers
  import opened ComplaintModel
  import opened ComplaintStore
  import opened Http
  import Auth

  /** The form fields of a complaint submission. */
  datatype Submission = Submission(
    description: Option<string>,
    email: Option<string>,
    lat: Option<string>,
    lng: Option<string>)

  /** What the image storage service answered for an attached photo. */
  datatype Upload = Uploaded(secureUrl: string) | UploadFailed

  /** A handler's response together with the store it leaves behind. */
  datatype Outcome = Outcome(response: Response, store: Store)

  /** The photo reference an upload yields; `None` when no file was attached. */
  function PhotoUrl(photo: Option<Upload>): Option<string>
  {
    match photo
    case Some(Uploaded(url)) => Some(url)
    case _ => None
  }

  /**
   * `POST /api/complaints`. `photo` is `None` when no file is attached and
   * otherwise the storage service's answer; `id` and `now` are the
   * identifier and time the document store assigns, the identifier being
   * one no stored complaint has.
   */
  function Submit(store: Store, form: Submission, photo: Option<Upload>, id: Id, now: Timestamp): (o: Outcome)
    requires !HasId(store, id)
    ensures !Present(form.description) ==>
      o == Outcome(Response(BadRequest, Error("description required")), store)
    ensures Present(form.description) && photo == Some(UploadFailed) ==>
      o == Outcome(Response(ServerError, Error("server error")), store)
    ensures Present(form.description) && (CoordinateRejected(form.lat) || CoordinateRejected(form.lng)) ==>
      o == Outcome(Response(ServerError, Error("server error")), store)
    ensures o.response.code == OkCode <==>
      && Present(form.description) && photo != Some(UploadFailed)
      && !CoordinateRejected(form.lat) && !CoordinateRejected(form.lng)
    ensures o.response.code == OkCode ==>
      && o.response.body.Record?
      && var c := o.response.body.complaint;
      && o.store == store + [c]
      && c.id == id
      && c.description == form.description.value
      && c.email == OrNull(form.email)
      && c.lat == OrNull(form.lat)
      && c.lng == OrNull(form.lng)
      && (photo.None? ==> c.photoUrl.None?)
      && (photo.Some? ==> c.photoUrl == Some(photo.value.secureUrl))
      && c.status == Pending
      && c.createdAt == now
      && c.updatedAt.None?
      && WellFormed(c)
  {
    if !Present(form.description) then
      Outcome(Response(BadRequest, Error("description required")), store)
    else if photo == Some(UploadFailed) then
      Outcome(Response(ServerError, Error("server error")), store)
    else
      var fields := Fields(form.description, OrNull(form.email), OrNull(form.lat),
                           OrNull(form.lng), PhotoUrl(photo), None);
      match Create(fields, id, now)
      case Failure(_) => Outcome(Response(ServerError, Error("server error")), store)
      case Success(c) =>
        var (s', saved) := Add(store, c);
        Outcome(Response(OkCode, Record(saved)), s')
  }

  /** `GET /api/complaints/:id`: the complaint, or 404. */
  function Lookup(store: Store, id: Id): (r: Response)
    ensures r.code == NotFound <==> !HasId(store, id)
    ensures r.code == NotFound ==> r.body == Error("not found")
    ensures r.code != NotFound ==>
      r.code == OkCode && r.body.Record? && r.body.complaint.id == id && r.body.complaint in store
  {
    match Get(store, id)
    case None => Response(NotFound, Error("not found"))
    case Some(c) => Response(OkCode, Record(c))
  }

  /** A submitted complaint reads back by its fresh identifier exactly as it was stored. */
  lemma SubmitThenLookup(store: Store, form: Submission, photo: Option<Upload>, id: Id, now: Timestamp)
    requires !HasId(store, id)
    requires Submit(store, form, photo, id, now).response.code == OkCode
    ensures var o := Submit(store, form, photo, id, now);
            Lookup(o.store, id) == o.response
  {
  }

  /**
   * `PUT /api/complaints/:id/status` after authentication: 400 without a
   * status, before any lookup; 404 for an unknown id; 500 when the status
   * is outside the enum (the document fails validation on save); otherwise
   * the record's status and update time are set.
   */
  function ChangeStatus(store: Store, id: Id, status: Option<string>, now: Timestamp): (o: Outcome)
    ensures o.response.code != OkCode ==> o.store == store
    ensures !Present(status) ==> o.response == Response(BadRequest, Error("status required"))
    ensures Present(status) && !HasId(store, id) ==> o.response == Response(NotFound, Error("not found"))
    ensures Present(status) && HasId(store, id) && ParseStatus(status.value).None? ==>
      o.response == Response(ServerError, Error("server error"))
    ensures o.response.code == OkCode <==>
      Present(status) && HasId(store, id) && ParseStatus(status.value).Some?
    ensures o.response.code == OkCode ==>
      && |o.store| == |store|
      && o.response.body.Record?
      && var c := o.response.body.complaint;
      && Get(o.store, id) == Some(c)
      && o.store[FindIndex(store, id).value] == c
      && OnlyStatusChanged(Get(store, id).value, c)
      && StatusName(c.status) == status.value
      && c.updatedAt == Some(now)
      && forall j :: 0 <= j < |store| && j != FindIndex(store, id).value ==> o.store[j] == store[j]
  {
    if !Present(status) then
      Outcome(Response(BadRequest, Error("status required")), store)
    else if Get(store, id).None? then
      Outcome(Response(NotFound, Error("not found")), store)
    else
      match ParseStatus(status.value)
      case None => Outcome(Response(ServerError, Error("server error")), store)
      case Some(st) =>
        GetAfterUpdate(store, id, st, now);
        var (s', updated) := UpdateStatus(store, id, st, now);
        Outcome(Response(OkCode, Record(updated.value)), s')
  }

  /** Setting the same status twice leaves the store as the second update alone would. */
  lemma ChangeStatusIdempotent(store: Store, id: Id, status: string, t1: Timestamp, t2: Timestamp)
    ensures ChangeStatus(ChangeStatus(store, id, Some(status), t1).store, id, Some(status), t2).store
         == ChangeStatus(store, id, Some(status), t2).store
  {
  }

  /**
   * The handlers keep every stored complaint well formed, as long as the
   * clock has not run backwards past a stored creation time.
   */
  lemma HandlersPreserveWellFormed(store: Store, form: Submission, photo: Option<Upload>,
                                   newId: Id, id: Id, status: Option<string>, now: Timestamp)
    requires !HasId(store, newId)
    requires forall k :: 0 <= k < |store| ==> WellFormed(store[k]) && store[k].createdAt <= now
    ensures var s := Submit(store, form, photo, newId, now).store;
            forall k :: 0 <= k < |s| ==> WellFormed(s[k])
    ensures var s := ChangeStatus(store, id, status, now).store;
            forall k :: 0 <= k < |s| ==> WellFormed(s[k])
  {
    var o := Submit(store, form, photo, newId, now);
    if o.response.code == OkCode {
      assert forall k :: 0 <= k < |store| ==> o.store[k] == store[k];
    }
    if Present(status) && HasId(store, id) && ParseStatus(status.value).Some? {
      UpdatePreservesWellFormed(store, id, ParseStatus(status.value).value, now);
    }
  }

  /** Creation under a fresh identifier and status updates keep identifiers unique. */
  lemma HandlersPreserveUniqueIds(store: Store, form: Submission, photo: Option<Upload>,
                                  newId: Id, id: Id, status: Option<string>, now: Timestamp)
    requires UniqueIds(store) && !HasId(store, newId)
    ensures UniqueIds(Submit(store, form, photo, newId, now).store)
    ensures UniqueIds(ChangeStatus(store, id, status, now).store)
  {
    var o := Submit(store, form, photo, newId, now);
    if o.response.code == OkCode {
      assert forall k :: 0 <= k < |store| ==> o.store[k] == store[k];
    }
    ChangeStatusKeepsIds(store, id, status, now);
  }

  /** A status change moves no record and renames none. */
  lemma ChangeStatusKeepsIds(store: Store, id: Id, status: Option<string>, now: Timestamp)
    ensures var s := ChangeStatus(store, id, status, now).store;
            |s| == |store| && forall k :: 0 <= k < |s| ==> s[k].id == store[k].id
  {
    var o := ChangeStatus(store, id, status, now);
    if o.response.code == OkCode {
      var i := FindIndex(store, id).value;
      assert o.store[i] == o.response.body.complaint;
    }
  }

  /**
   * The lifecycle: a complaint submitted and then moved to "In Progress" is
   * seen by anyone looking it up with that status and an update time.
   */
  lemma SubmitUpdateLookup(store: Store, form: Submission, photo: Option<Upload>, id: Id, t1: Timestamp, t2: Timestamp)
    requires !HasId(store, id)
    requires Submit(store, form, photo, id, t1).response.code == OkCode
    ensures var s1 := Submit(store, form, photo, id, t1).store;
            var o2 := ChangeStatus(s1, id, Some("In Progress"), t2);
            && o2.response.code == OkCode
            && Lookup(o2.store, id) == o2.response
            && o2.response.body.complaint.status == InProgress
            && o2.response.body.complaint.updatedAt == Some(t2)
  {
  }

  /** The mail settings: `EMAIL_USER` and `EMAIL_PASSWORD`. */
  datatype MailConfig = MailConfig(user: Option<string>, password: Option<string>)

  /** An email the handler hands to the mail service; whether it is delivered is not observed. */
  datatype Notice = Notice(to: string, subject: string, text: string)

  /** A status update's outcome together with the email it started or attempted, if any. */
  datatype StatusOutcome = StatusOutcome(outcome: Outcome, notice: Option<Notice>)

  /** The subject both handlers give a status notification. */
  function NoticeSubject(c: Complaint): string
  {
    "Complaint " + c.id + " status: " + StatusName(c.status)
  }

  /** An authenticated handler runs only once the middleware lets the request through. */
  function Gate(auth: Auth.Decision, store: Store, handler: Outcome): (o: Outcome)
    ensures auth.Reject? ==> o == Outcome(auth.response, store)
    ensures auth.Proceed? ==> o == handler
  {
    match auth
    case Reject(r) => Outcome(r, store)
    case Proceed(_) => handler
  }
  /**
   * Behind the bearer-token middleware a request without a valid token is
   * answered 401 and changes nothing; a valid one reaches the handler.
   */
  lemma GateRejectsUnauthorized(header: Option<string>, verify: string -> Option<string>,
                                findUser: string -> Option<Auth.User>, store: Store, handler: Outcome)
    ensures var a := Auth.Authenticate(header, verify, findUser);
            var o := Gate(a, store, handler);
            && (a.Reject? ==> o.response.code == Unauthorized && o.store == store)
            && (a.Proceed? ==> o == handler)
  {
  }

}

=== FILE: wrappers.dfy ===
/** Optional values and results shared by the whole model. */
module Wrappers {

  /** A value that may be absent; stands for JavaScript's `null`/`undefined`. */
  datatype Option<+T> = None | Some(value: T)

  /** The outcome of an operation that can fail with an error value. */
  datatype Result<+R, +E> = Success(value: R) | Failure(error: E)
}
